=== FILE: README.md ===
# FICS dissector: timeseal decoder and login capture

A Dafny model of ettercap's FICS dissector, `ec_fics.c`. The dissector
watches telnet-style logins to a FICS chess server on TCP ports 23 and 5000.

It has two parts:

- **`decode_timeseal`.** This undoes the keystroke scrambling that timeseal
  clients apply to each line they send.
  - Find the first line feed. The byte before it is the *offset byte*, and
    its position is the line length `l`.
  - Write a NUL terminator over the offset byte.
  - Mix every byte in `[0, l)` with a fixed 50-character key, starting at key
    index `offset byte - 0x80`.
  - In every 12-byte block whose start is below `l`, exchange positions 0/11,
    2/9 and 4/7.
  - Cut the string at the first 0x18, the sender's timestamp mark.
- **The per-flow capture state machine in `dissector_fics`.**
  - A server chunk containing `login:` arms a flow that has no session.
  - On an armed flow, the first client chunk is kept as the username and the
    next one is the password. Chunks starting with the Telnet IAC byte 0xFF
    are ignored.
  - Username and password are each cut at CR and then at LF, and reported
    together with the server endpoint. The session is then dropped.
  - Before any of this, a client chunk is run through the decoder when its
    trailer looks like timeseal. A chunk mentioning `TIMESTAMP` is reported
    verbatim.

Files:

- **`cstrings.dfy`.** `Wrappers.Option`, plus the C string primitives the code
  relies on: `strchr` followed by a terminator write (`Before`), and `strstr`
  (`Contains`). Bytes are `bv8`, so the wrap-around of `char` arithmetic is
  built in.
- **`blockswap.dfy`.** The 12-byte block swap pass, generic in the element
  type. It comes with its shape, permutation and involution properties.
- **`timeseal.dfy`.** The decoder as pure functions.
  - `DecodeAsWritten` is the code as written.
  - `Decode` is the corrected decoder.
  - `Seal` is a reference definition of the sender, used for the round trip.
- **`decoder.dfy`.** The decoder as the C loops run it over the buffer, with
  the `SC` exclusive-or exchange. It is proved equal to `DecodeAsWritten`.
- **`fics.dfy`.** The dissector as a transition function `Step` over a session
  store `map<Ident, Option<seq<byte>>>`. `None` means armed with no username
  yet. `Run` folds `Step` over a packet sequence.

Two things outside the dissector become parameters: the packet direction,
which the host classifies, and the flow identifier, which the host builds.

Inputs whose C behaviour is undefined are excluded by preconditions:

- `Decodable` requires that the C string holds a line feed that is not its
  first byte, and that every key index `(n + offset) % 50` is in bounds
  under C's truncating `%` (`CRem50`). For an offset computed from a byte,
  that means one of three cases (`KeyDefinedExactly`):
  - the offset byte is at least 0x80;
  - the line is empty;
  - the line is one byte long and the offset byte is 0x4E or 0x1C, so the
    offset is -50 or -100, which C reduces to key index 0.
- `Dissectable` excludes a one-byte chunk holding only a line feed, for which
  the trailer test reads before the buffer.
- `DecodeAsWritten` requires the buffer to reach `RoundUp12(l)`, because the
  swap loop as written reads and writes that far.

The host is assumed to place a NUL after the last byte of every payload.
The model reads every payload as a C string up to its first NUL (`Before(s, NUL)`).

## Model

| member | source | states |
|---|---|---|
| Timeseal.LineLength | ec_fics.c:38-40 | `l` is one before the first line feed of the C string. Every byte up to and including the offset byte is neither LF nor NUL. The offset byte is at least 0x80, unless `l` is 0 or `l` is 1 with offset byte 0x4E or 0x1C. |
| Timeseal.Offset | ec_fics.c:39 | The offset lies in `[-0x80, 0x80)`. Every key index the XOR pass uses is in bounds, including C's index 0 for offsets -50 and -100 on a one-byte line. |
| Timeseal.CRem50 | ec_fics.c:44 | C's `x % 50`: the remainder lies strictly between -50 and 50, differs from `x` by a multiple of 50, and has the sign of `x`. |
| Timeseal.KeyDefinedExactly | ec_fics.c:39-44 | For a byte-sized offset, the key indices of a line are all in bounds exactly when the offset is not negative, the line is empty, or the line has one byte and the offset is -50 or -100. |
| Timeseal.Mix | ec_fics.c:44 | Every mixed byte is 7-bit, because the high bit is cleared. |
| Timeseal.XorPass | ec_fics.c:43-44 | The XOR pass keeps the length, makes every byte below `l` 7-bit, and leaves every byte from `l` on unchanged. |
| Timeseal.XorPassInvertsScramble | ec_fics.c:43-44 | The XOR pass is the exact inverse of the reference scrambler on every 7-bit line. |
| Timeseal.MixScramble | ec_fics.c:44 | `Mix` undoes `Scramble` on each 7-bit byte, at every position and offset. |
| Timeseal.Mixed | ec_fics.c:38-44 | After setup and the XOR pass, bytes below `l` are 7-bit, `s[l]` is NUL, and everything past `l` is the input. |
| Timeseal.CutTimestamp | ec_fics.c:50-53 | The result is the prefix before the first NUL or 0x18. It contains neither, and it stops only at one of them or at the end. |
| Timeseal.DecodeAsWritten | ec_fics.c:34-54 | The decoded string is the prefix of the buffer after both passes that stops at its first NUL or 0x18: it contains neither, and the next byte is one of them. |
| Timeseal.DecodeAsWrittenWithinLine | ec_fics.c:41-48 | If `l % 12` is neither 2 nor 4, the decoded string is no longer than the line. |
| Timeseal.PartialBlockPullsTail | ec_fics.c:46-48 | For every line length that is not a multiple of 12, the first position of the last block takes the byte from its position 11, which is at or past the offset byte. |
| Timeseal.TenByteLineStartsWithLineFeed | ec_fics.c:38-53 | For every decodable line of length 10, the decoded string is non-empty and starts with the line feed that follows the offset byte. |
| Timeseal.DecodeAsWrittenOverrunsLine | ec_fics.c:46-48 | For a concrete buffer with `l = 2`, the decoded string is 9 bytes long. It carries the line feed and bytes from past the line. |
| Timeseal.Decode | ec_fics.c:34-54 | The corrected decoder's result is no longer than the line and is all 7-bit. It has no NUL or 0x18, and it is the descrambled line up to its first NUL or 0x18. |
| Timeseal.Descrambled | ec_fics.c:41-48 | Swapping only whole blocks keeps the line 7-bit, the terminator at `l`, and every byte after it. |
| Timeseal.DecodeAgreesOnWholeBlocks | ec_fics.c:46-48 | When `l` is a multiple of 12, the code as written and the corrected decoder give the same string. |
| Timeseal.SealRoundTrip | ec_fics.c:34-54 | Decoding a sealed 7-bit line of whole blocks gives back the line up to its first NUL or 0x18, with the line length the decoder finds equal to the plain length. |
| Timeseal.KeyAt | ec_fics.c:30 | Every key byte is 7-bit. |
| BlockSwap.Swap | ec_fics.c:46 | The `SC` exchange keeps the buffer's length. |
| BlockSwap.SwapExchanges | ec_fics.c:46 | After `SC(i, j)` position `i` holds the old byte at `j` and `j` the old byte at `i`; every other position keeps its byte. |
| BlockSwap.SwapBlock | ec_fics.c:48 | The three exchanges of one block keep the length. `SwapBlockAt` gives each position its mirror byte inside the block and leaves the rest alone. |
| BlockSwap.SwapBlockAt | ec_fics.c:48 | Inside the block each position takes the byte at its mirror (0/11, 2/9, 4/7, the rest fixed), and every position outside the block keeps its byte. |
| BlockSwap.SwapFrom | ec_fics.c:47-48 | The loop from block start `n` up to the bound keeps the length. `SwapFromAt` gives the pointwise result. |
| BlockSwap.SwapFromAt | ec_fics.c:47-48 | The blocks swapped from `n` on put at each position the byte from its partner among the blocks starting in `[n, l)`. |
| BlockSwap.SwapPass | ec_fics.c:47-48 | The swap loop bounded by the line length keeps the buffer's length. `SwapPassShape`, `SwapPassInvolution` and `SwapFromPermutes` state the rest. |
| BlockSwap.PartialBlockPulls | ec_fics.c:47-48 | When `l` ends inside a block, that block's first position takes the byte at its position 11, at or past `l`. |
| BlockSwap.SwapPassShape | ec_fics.c:46-48 | The pass leaves every position from `RoundUp12(l)` on alone. Below that, each position takes the byte at its mirror in the block: 0/11, 2/9 and 4/7, with the other offsets fixed. |
| BlockSwap.SwapPassWholeBlocks | ec_fics.c:46-48 | For `l` a multiple of 12, the pass touches only `[0, l)` and moves bytes only within it. |
| BlockSwap.SwapPassBlock | ec_fics.c:48 | Inside each block below a whole-block bound, exactly 0/11, 2/9 and 4/7 are exchanged, and the six other offsets keep their bytes. |
| BlockSwap.SwapFromPermutes | ec_fics.c:47-48 | The swap loop keeps the multiset of bytes. |
| BlockSwap.SwapPassInvolution | ec_fics.c:46-48 | Applying the pass twice restores the input, and the pass is a permutation. |
| BlockSwap.SwapPassUndoes | ec_fics.c:46-48 | Swapping a block-swapped line again restores it, whatever follows it in the buffer. |
| BlockSwap.PartnerFrom | ec_fics.c:47-48 | A byte that moves stays below `RoundUp12(l)`. |
| Decoder.DecodeTimeseal | ec_fics.c:34-54 | The in-place loops compute exactly `DecodeAsWritten`. |
| Decoder.FindLineFeed | ec_fics.c:38 | The scan stops at the first line feed, one past the offset byte. |
| Decoder.MixLoop | ec_fics.c:43-44 | The byte-by-byte loop computes the XOR pass. |
| Decoder.MixAfterTerminator | ec_fics.c:41-44 | Writing the terminator before the XOR loop, as the code does, gives the same buffer as writing it after. |
| Decoder.SwapLoop | ec_fics.c:47-48 | The block loop computes the swap pass bounded by `l`. |
| Decoder.ExchangeXor | ec_fics.c:46 | The three exclusive-ors of `SC` exchange two distinct bytes. |
| Decoder.CutLoop | ec_fics.c:51-53 | The scan for the first NUL or 0x18 yields the cut string. |
| Decoder.CutTimestampUnique | ec_fics.c:50-53 | The cut string is the only prefix free of NUL and 0x18 that ends at one of them or at the end of the buffer. |
| CStrings.IndexOf | ec_fics.c:38 | `strchr` returns a position holding `c` with no earlier `c`, and finds none exactly when `c` does not occur. |
| CStrings.Contains | ec_fics.c:87-100 | `strstr` (lines 87 and 100) finds the pattern only in a string at least as long, and always finds a prefix. |
| CStrings.ContainsWithin | ec_fics.c:87-100 | A pattern found in a string is still found once bytes are added before or after it. |
| CStrings.Before | ec_fics.c:120-127 | Cutting at the first `c` gives a `c`-free prefix that ends at a `c` or at the end. |
| Fics.SealedTrailer | ec_fics.c:95 | The trailer test passes only for a chunk of at least two bytes that holds a line feed and whose next-to-last byte is neither NUL, CR nor LF. |
| Fics.ClientText | ec_fics.c:94-96 | A chunk whose trailer is a high byte and a line feed is replaced by its decoded line: 7-bit and no longer than the chunk minus two. Any other chunk is read as a C string up to its first NUL. |
| Fics.StripLine | ec_fics.c:119-127 | The stripped string is a prefix free of CR and LF that ends at a CR or LF or at the end. |
| Fics.StripLineLongest | ec_fics.c:119-127 | That prefix is unique: the longest one free of CR and LF. |
| Fics.OnServer | ec_fics.c:84-92 | A server chunk arms a flow exactly when the flow had no session and the chunk contains `login:`. A new session has no username, an existing one (pending username included) is kept, and other flows are untouched. |
| Fics.OnClient | ec_fics.c:98-139 | Text with `TIMESTAMP` is reported verbatim, whatever the session state. Unarmed flows and IAC chunks change nothing. The first chunk on an armed flow is stored verbatim. The next one yields the credential (both strings stripped, with the destination endpoint) and deletes the session. Other flows are untouched. |
| Fics.Step | ec_fics.c:69-143 | An empty chunk does nothing and server chunks never report or capture. A credential comes only from a flow with a stored username, is free of CR and LF, and ends the session. A session ends only when a credential is captured. Only a server `login:` creates a session, and client chunks on unarmed flows change nothing. |
| Fics.CaptureEndsCollection | ec_fics.c:135-137 | After a capture, a further client chunk on the same flow changes nothing and captures nothing. |
| Fics.ServerKeepsSession | ec_fics.c:84-92 | A server chunk on an armed flow leaves the store and the pending username unchanged. |
| Fics.LoginCapture | ec_fics.c:84-139 | A `login:` banner followed by two plain CR LF lines arms the flow and stores the username line. It then yields the credential with both line endings cut, and leaves the store empty. |
| Fics.ClientStep | ec_fics.c:104-136 | On an armed flow, a non-IAC client chunk without `TIMESTAMP` is stored as the username, or completes and removes the session. |
| Fics.PlainLineText | ec_fics.c:95-127 | A plain line ended by CR LF skips the decoder, passes through unchanged, and strips back to the line. |
| Fics.Run | ec_fics.c:69-143 | A run of packets captures at most one credential per packet. |
| Fics.RunNeedsLogin | ec_fics.c:84-92 | At the end of a run, every session and every capture belongs to a flow that was armed at the start or saw a server `login:` chunk. |
| Fics.ArmedUntilCapture | ec_fics.c:110-137 | A flow armed at the start of a run stays armed at its end unless a credential was captured from it during the run. |
| Fics.ClientsAloneArmNothing | ec_fics.c:93-139 | Client chunks alone never arm a flow and never capture from a flow that was not armed. |

## Left out

- Registration of the dissector for ports 23 and 5000 (`fics_init`, ec_fics.c:63-67) is host plumbing.
- `FROM_SERVER` (ec_fics.c:84) is host classification. The direction is a field of the packet.
- Ident creation and freeing, and the host's session functions, are replaced by an abstract map keyed by an opaque byte-string identifier (ec_fics.c:81, 86-90, 104, 136-137). The ident leaked on the non-final paths is a memory matter, not behaviour.
- Output formatting (`DISSECT_MSG`, `ip_addr_ntoa`, `ntohs`, ec_fics.c:101, 130-133) is left out. The model returns the reported text and the credential, with the server endpoint as an opaque address and port.
- `strdup` and memory management are left out. Strings are values.
- Undefined behaviour is excluded by preconditions, not modelled (`Decodable`, `Dissectable`, and the length requirement of `DecodeAsWritten`):
  - the one-byte line-feed chunk (ec_fics.c:95);
  - a line feed at index 0 (ec_fics.c:38);
  - a key index that C's `%` makes negative. This is any negative offset on a line of two or more bytes, and any negative offset other than -50 and -100 on a one-byte line (ec_fics.c:39, 44);
  - swaps past the end of the buffer (ec_fics.c:48);
  - a C string with no line feed, where `strchr` returns NULL and line 38 reads before the buffer. The chunk `00 80 0A` passes the trailer test and reaches this. The code would crash or read stray memory; `Decodable` rejects the chunk through its `None` case.
- The trailer test looks at the last byte of the chunk, but the decoder uses the first line feed. The model keeps this as written: `ClientText` decodes at the first line feed whenever the trailer test passes.
- Fics.ClientText: decodes with the corrected `Timeseal.Decode`, not with `decode_timeseal` as written. The behaviour as written is kept in `DecodeAsWritten` and proved equal to the loops in `Decoder.DecodeTimeseal`. The two differ on a line that ends inside a block, where the code pulls bytes from past the line into the string. The chunk `41 80 0A 41 41 41 41 41 41 41 41 FF 80 0A` passes the trailer test with a one-byte line. The code turns it into the string `FF`, which ec_fics.c:107 skips as a telnet command. The model turns it into `35`, which is stored as the user name.
- Timeseal.Seal: this is a reference sender for lines of whole blocks with an offset byte of at least 0x80. It is not code from the dissector. The round trip is stated only for such lines.
- Fics.Run: states only a bound on the number of captures. Which flows a run can capture from is stated by `RunNeedsLogin` and `ClientsAloneArmNothing`.
- The code swaps a trailing partial block. The model follows the code, and the Findings table records the consequence.

## Findings

| source | as written | input that shows it | evidently intended | confidence | as-written member | corrected member |
|---|---|---|---|---|---|---|
| ec_fics.c:47-48 | The swap loop runs for every block start `n < l`, so a trailing partial block is swapped against positions at and past `l`. For every `l` that is not a multiple of 12, the first byte of the last block is taken from at or past the offset byte (`PartialBlockPullsTail`). For `l = 10` that byte is the line feed, so the decoded string starts with LF (`TenByteLineStartsWithLineFeed`), and a password sealed this way would be stripped to nothing. For `l % 12` of 2 or 4 the NUL written at `s[l]` also moves up, and the decoded string can run past the line (the input in the next column gives 9 bytes from a 2-byte line). | Bytes `41 41 80 0A 41 41 41 41 41 41 41 41`: `l = 2`, offset 0. The result is `41 08 41 0A 41 41 41 41 41`, 9 bytes from a 2-byte line. | Swap only the whole blocks inside `[0, l)`, so the result is no longer than the line and nothing past the offset byte is touched. | not executed | Timeseal.DecodeAsWrittenOverrunsLine, Timeseal.PartialBlockPullsTail | Timeseal.Decode |

=== FILE: blockswap.dfy ===
/**
 The second pass of the timeseal decoder: within every 12-byte block whose
 start lies below a bound `l`, exchange positions 0 and 11, 2 and 9, 4 and 7.
 The bound is the decoded line length, and a block may start below `l` yet
 end past it, so the pass can reach up to index `RoundUp12(l) - 1`.
 */
module BlockSwap {
  /** Length of the shortest run of whole blocks covering `[0, l)`. */
  function RoundUp12(l: nat): (r: nat)
    ensures r % 12 == 0 && l <= r < l + 12
  {
    if l % 12 == 0 then l else l - l % 12 + 12
  }

  /** Every block that starts at a multiple of 12 below `l` ends within `RoundUp12(l)`. */
  lemma BlockWithinReach(n: nat, l: nat)
    requires n % 12 == 0 && n < l
    ensures n + 12 <= RoundUp12(l)
  {
  }

  /** Exchange two bytes (the `SC` macro). */
  function Swap<T>(s: seq<T>, i: nat, j: nat): (r: seq<T>)
    requires i < |s| && j < |s|
    ensures |r| == |s|
  {
    s[i := s[j]][j := s[i]]
  }

  /**
   A swap exchanges the bytes at `i` and `j` and leaves every other
   position alone.
   */
  lemma SwapExchanges<T>(s: seq<T>, i: nat, j: nat, k: nat)
    requires i < |s| && j < |s| && k < |s|
    ensures Swap(s, i, j)[i] == s[j] && Swap(s, i, j)[j] == s[i]
    ensures k != i && k != j ==> Swap(s, i, j)[k] == s[k]
  {}

  /** The three exchanges applied to the block starting at `n`. */
  function SwapBlock<T>(s: seq<T>, n: nat): (r: seq<T>)
    requires n + 12 <= |s|
    ensures |r| == |s|
  {
    Swap(Swap(Swap(s, n, n + 11), n + 2, n + 9), n + 4, n + 7)
  }

  /** An exchange keeps the multiset of bytes. */
  lemma SwapPermutes<T>(s: seq<T>, i: nat, j: nat)
    requires i < |s| && j < |s|
    ensures multiset(Swap(s, i, j)) == multiset(s)
  {
  }

  /** A block swap keeps the multiset of bytes. */
  lemma SwapBlockPermutes<T>(s: seq<T>, n: nat)
    requires n + 12 <= |s|
    ensures multiset(SwapBlock(s, n)) == multiset(s)
  {
    SwapPermutes(s, n, n + 11);
    SwapPermutes(Swap(s, n, n + 11), n + 2, n + 9);
    SwapPermutes(Swap(Swap(s, n, n + 11), n + 2, n + 9), n + 4, n + 7);
  }

  /** The start of the block holding `i`. */
  function BlockStart(i: nat): (b: nat)
    ensures b % 12 == 0 && b <= i < b + 12 && i % 12 == i - b
  {
    i - i % 12
  }

  /**
   The position whose byte lands at `i` when `i`'s block is swapped: the
   mirror image within the block for offsets 0, 2, 4, 7, 9 and 11, and
   `i` itself for every other offset.
   */
  function Mirror(i: nat): (j: nat)
    ensures BlockStart(j) == BlockStart(i)
  {
    var k := i % 12;
    i - k + MirrorOffset(k)
  }

  /** The offset within a block whose byte lands at offset `k`. */
  function MirrorOffset(k: nat): nat
  {
    if k == 0 || k == 2 || k == 4 || k == 7 || k == 9 || k == 11 then 11 - k else k
  }

  /** Mirroring twice is the identity. */
  lemma MirrorInvolution(i: nat)
    ensures Mirror(Mirror(i)) == i
  {
  }

  /**
   Where the blocks starting in `[n, l)` take the byte that ends at `i`;
   it stays below `RoundUp12(l)` whenever it moves.
   */
  function PartnerFrom(i: nat, n: nat, l: nat): (j: nat)
    ensures j == i || j < RoundUp12(l)
  {
    if n <= BlockStart(i) < l then
      BlockWithinReach(BlockStart(i), l);
      Mirror(i)
    else i
  }

  /** Where the swap pass bounded by `l` takes the byte that ends at `i`. */
  function Partner(i: nat, l: nat): (j: nat)
    ensures j == i || j < RoundUp12(l)
  {
    PartnerFrom(i, 0, l)
  }

  /** Swap every block whose start lies in `[n, l)`. */
  function SwapFrom<T>(s: seq<T>, n: nat, l: nat): (r: seq<T>)
    requires n % 12 == 0
    requires RoundUp12(l) <= |s|
    ensures |r| == |s|
    decreases l - n
  {
    if n >= l then s
    else
      BlockWithinReach(n, l);
      SwapFrom(SwapBlock(s, n), n + 12, l)
  }

  /** The swap pass of the decoder, for line length `l` (the loop at ec_fics.c:47-48). */
  function SwapPass<T>(s: seq<T>, l: nat): (r: seq<T>)
    requires RoundUp12(l) <= |s|
    ensures |r| == |s|
  {
    SwapFrom(s, 0, l)
  }

  /** The swap pass over a line of whole blocks, bounded by the line's own length. */
  function SwapLine<T>(p: seq<T>): (r: seq<T>)
    requires |p| % 12 == 0
    ensures |r| == |p|
  {
    assert RoundUp12(|p|) == |p|;
    SwapPass(p, |p|)
  }

  /** One block swap moves each byte of the block to its mirror position and nothing else. */
  lemma SwapBlockAt<T>(s: seq<T>, n: nat, i: nat)
    requires n % 12 == 0 && n + 12 <= |s| && i < |s|
    ensures SwapBlock(s, n)[i] == if n <= i < n + 12 then s[Mirror(i)] else s[i]
  {
    var s1 := Swap(s, n, n + 11);
    var s2 := Swap(s1, n + 2, n + 9);
    var j2 := if i == n + 4 then n + 7 else if i == n + 7 then n + 4 else i;
    var j1 := if j2 == n + 2 then n + 9 else if j2 == n + 9 then n + 2 else j2;
    var j0 := if j1 == n then n + 11 else if j1 == n + 11 then n else j1;
    SwapAt(s2, n + 4, n + 7, i);
    SwapAt(s1, n + 2, n + 9, j2);
    SwapAt(s, n, n + 11, j1);
    if n <= i < n + 12 {
      MirrorInBlock(n, i);
    }
  }

  /** Inside the block starting at `n`, the mirror of `i` is taken at offset `i - n`. */
  lemma MirrorInBlock(n: nat, i: nat)
    requires n % 12 == 0 && n <= i < n + 12
    ensures Mirror(i) == n + MirrorOffset(i - n)
  {
    assert i % 12 == i - n;
  }

  /** The byte an exchange leaves at `k`. */
  lemma SwapAt<T>(s: seq<T>, i: nat, j: nat, k: nat)
    requires i < |s| && j < |s| && i != j && k < |s|
    ensures Swap(s, i, j)[k] == if k == i then s[j] else if k == j then s[i] else s[k]
  {
  }

  /** Swapping block `n` first and then the blocks after it moves bytes as the blocks from `n` on do. */
  lemma PartnerStep<T>(s: seq<T>, n: nat, l: nat, i: nat)
    requires n % 12 == 0 && n < l && RoundUp12(l) <= |s| && i < |s|
    ensures n + 12 <= |s|
    ensures SwapBlock(s, n)[PartnerFrom(i, n + 12, l)] == s[PartnerFrom(i, n, l)]
  {
    BlockWithinReach(n, l);
    var b := BlockStart(i);
    if b == n {
      assert PartnerFrom(i, n + 12, l) == i;
      SwapBlockAt(s, n, i);
    } else if n + 12 <= b < l {
      var j := Mirror(i);
      assert BlockStart(j) == b;
      SwapBlockAt(s, n, j);
    } else {
      SwapBlockAt(s, n, i);
    }
  }

  /** Pointwise meaning of the blocks swapped from `n` on. */
  lemma {:induction false} SwapFromAt<T>(s: seq<T>, n: nat, l: nat, i: nat)
    requires n % 12 == 0 && RoundUp12(l) <= |s| && i < |s|
    ensures SwapFrom(s, n, l)[i] == s[PartnerFrom(i, n, l)]
    decreases l - n
  {
    if n < l {
      BlockWithinReach(n, l);
      SwapFromAt(SwapBlock(s, n), n + 12, l, i);
      PartnerStep(s, n, l, i);
    }
  }

  /** The swap pass takes the byte at `i` from `Partner(i, l)`. */
  lemma SwapPassAt<T>(s: seq<T>, l: nat, i: nat)
    requires RoundUp12(l) <= |s| && i < |s|
    ensures SwapPass(s, l)[i] == s[Partner(i, l)]
  {
    SwapFromAt(s, 0, l, i);
  }

  /** A position lies below `RoundUp12(l)` exactly when its block starts below `l`. */
  lemma BelowReach(i: nat, l: nat)
    ensures i < RoundUp12(l) <==> BlockStart(i) < l
  {
    var b := BlockStart(i);
    if b < l {
      BlockWithinReach(b, l);
    }
  }

  /**
   The swap pass leaves every position from `RoundUp12(l)` on alone, and
   exchanges exactly 0/11, 2/9 and 4/7 inside each block below it.
   */
  lemma SwapPassShape<T>(s: seq<T>, l: nat)
    requires RoundUp12(l) <= |s|
    ensures forall i | RoundUp12(l) <= i < |s| :: SwapPass(s, l)[i] == s[i]
    ensures forall i | 0 <= i < RoundUp12(l) :: Mirror(i) < |s| && SwapPass(s, l)[i] == s[Mirror(i)]
  {
    forall i | 0 <= i < |s|
      ensures i < RoundUp12(l) ==> Mirror(i) < |s| && SwapPass(s, l)[i] == s[Mirror(i)]
      ensures i >= RoundUp12(l) ==> SwapPass(s, l)[i] == s[i]
    {
      BelowReach(i, l);
      SwapPassAt(s, l, i);
    }
  }

  /**
   For a line of whole blocks (`l` a multiple of 12) the pass touches only
   `[0, l)`.
   */
  lemma SwapPassWholeBlocks<T>(s: seq<T>, l: nat)
    requires l % 12 == 0 && l <= |s|
    ensures forall i | l <= i < |s| :: SwapPass(s, l)[i] == s[i]
    ensures forall i | 0 <= i < l :: Mirror(i) < l && SwapPass(s, l)[i] == s[Mirror(i)]
  {
    assert RoundUp12(l) == l;
    SwapPassShape(s, l);
    forall i | 0 <= i < l
      ensures Mirror(i) < l
    {
      MirrorBelow(i, l);
    }
  }

  /** Below a whole-block bound, a position's mirror stays below it. */
  lemma MirrorBelow(i: nat, l: nat)
    requires l % 12 == 0 && i < l
    ensures Mirror(i) < l
  {
    BelowReach(i, l);
    assert RoundUp12(l) == l;
    BelowReach(Mirror(i), l);
  }

  /**
   Inside one block below a whole-block bound, position `n + 0` takes the
   byte from `n + 11` and back, `n + 2` from `n + 9`, `n + 4` from `n + 7`,
   and the other six offsets keep their byte.
   */
  lemma SwapPassBlock<T>(s: seq<T>, l: nat, n: nat)
    requires l % 12 == 0 && l <= |s| && n % 12 == 0 && n < l
    ensures n + 12 <= l
    ensures SwapPass(s, l)[n] == s[n + 11] && SwapPass(s, l)[n + 11] == s[n]
    ensures SwapPass(s, l)[n + 2] == s[n + 9] && SwapPass(s, l)[n + 9] == s[n + 2]
    ensures SwapPass(s, l)[n + 4] == s[n + 7] && SwapPass(s, l)[n + 7] == s[n + 4]
    ensures SwapPass(s, l)[n + 1] == s[n + 1] && SwapPass(s, l)[n + 3] == s[n + 3]
    ensures SwapPass(s, l)[n + 5] == s[n + 5] && SwapPass(s, l)[n + 6] == s[n + 6]
    ensures SwapPass(s, l)[n + 8] == s[n + 8] && SwapPass(s, l)[n + 10] == s[n + 10]
  {
    BlockWithinReach(n, l);
    assert RoundUp12(l) == l;
    SwapPassOffset(s, l, n, 0);
    SwapPassOffset(s, l, n, 1);
    SwapPassOffset(s, l, n, 2);
    SwapPassOffset(s, l, n, 3);
    SwapPassOffset(s, l, n, 4);
    SwapPassOffset(s, l, n, 5);
    SwapPassOffset(s, l, n, 6);
    SwapPassOffset(s, l, n, 7);
    SwapPassOffset(s, l, n, 8);
    SwapPassOffset(s, l, n, 9);
    SwapPassOffset(s, l, n, 10);
    SwapPassOffset(s, l, n, 11);
  }

  /** Position `n + k` of a block below the bound takes its byte from the mirror offset. */
  lemma SwapPassOffset<T>(s: seq<T>, l: nat, n: nat, k: nat)
    requires n % 12 == 0 && n < l && RoundUp12(l) <= |s| && k < 12
    ensures n + 12 <= |s|
    ensures SwapPass(s, l)[n + k] == s[n + MirrorOffset(k)]
  {
    BlockWithinReach(n, l);
    var i := n + k;
    OffsetInBlock(n, k);
    assert Partner(i, l) == Mirror(i);
    SwapPassAt(s, l, i);
  }

  /** Offset `k` of the block starting at `n` mirrors to offset `MirrorOffset(k)` of the same block. */
  lemma OffsetInBlock(n: nat, k: nat)
    requires n % 12 == 0 && k < 12
    ensures BlockStart(n + k) == n && Mirror(n + k) == n + MirrorOffset(k)
  {
    assert (n + k) % 12 == k;
  }

  /**
   When `l` ends inside a block, the first position of that block takes
   the byte from its position 11, which lies at or past `l`.
   */
  lemma PartialBlockPulls<T>(s: seq<T>, l: nat)
    requires l % 12 != 0 && RoundUp12(l) <= |s|
    ensures l <= l - l % 12 + 11 < |s|
    ensures SwapPass(s, l)[l - l % 12] == s[l - l % 12 + 11]
  {
    SwapPassOffset(s, l, l - l % 12, 0);
  }

  /** The swap pass is a permutation: it keeps the multiset of bytes. */
  lemma {:induction false} SwapFromPermutes<T>(s: seq<T>, n: nat, l: nat)
    requires n % 12 == 0 && RoundUp12(l) <= |s|
    ensures multiset(SwapFrom(s, n, l)) == multiset(s)
    decreases l - n
  {
    if n < l {
      var t := SwapFromStep(s, n, l);
      SwapFromPermutes(t, n + 12, l);
    } else {
      SwapFromDone(s, n, l);
    }
  }

  /** Past the bound the pass is the identity. */
  lemma SwapFromDone<T>(s: seq<T>, n: nat, l: nat)
    requires n % 12 == 0 && RoundUp12(l) <= |s| && l <= n
    ensures SwapFrom(s, n, l) == s
  {
  }

  /** One step of the pass: swap the block at `n`, then go on from `n + 12`. */
  lemma SwapFromStep<T>(s: seq<T>, n: nat, l: nat) returns (t: seq<T>)
    requires n % 12 == 0 && RoundUp12(l) <= |s| && n < l
    ensures (n + 12) % 12 == 0 && n + 12 <= |s| == |t|
    ensures multiset(t) == multiset(s)
    ensures SwapFrom(s, n, l) == SwapFrom(t, n + 12, l)
  {
    BlockWithinReach(n, l);
    t := SwapBlock(s, n);
    SwapBlockPermutes(s, n);
  }

  /** The swap pass is an involution: applying it twice restores the input. */
  lemma SwapPassInvolution<T>(s: seq<T>, l: nat)
    requires RoundUp12(l) <= |s|
    ensures SwapPass(SwapPass(s, l), l) == s
    ensures multiset(SwapPass(s, l)) == multiset(s)
  {
    var t := SwapPass(s, l);
    forall i | 0 <= i < |s| ensures SwapPass(t, l)[i] == s[i] {
      var j := Partner(i, l);
      SwapPassAt(t, l, i);
      SwapPassAt(s, l, j);
      MirrorInvolution(i);
    }
    SwapFromPermutes(s, 0, l);
  }

  /**
   Swapping the whole blocks of `p` a second time undoes the first pass,
   whatever follows the line.
   */
  lemma SwapPassUndoes<T>(p: seq<T>, tail: seq<T>)
    requires |p| % 12 == 0
    ensures SwapPass(SwapLine(p) + tail, |p|) == p + tail
  {
    var m := SwapLine(p) + tail;
    assert m[..|p|] == SwapLine(p);
    SwapPassUndoesLine(p, m);
    SwapPassKeepsTail(m, |p|);
    var u := SwapPass(m, |p|);
    assert u == u[..|p|] + u[|p|..];
    assert m[|p|..] == tail;
  }

  /** The line part of `SwapPassUndoes`: the first `|p|` positions come back to `p`. */
  lemma SwapPassUndoesLine<T>(p: seq<T>, m: seq<T>)
    requires |p| % 12 == 0 && |p| <= |m| && m[..|p|] == SwapLine(p)
    ensures SwapPass(m, |p|)[..|p|] == p
  {
    var l := |p|;
    var u := SwapPass(m, l);
    forall i | 0 <= i < l ensures u[i] == p[i] {
      var j := Mirror(i);
      SwapPassWholeAt(m, l, i);
      SwapPassWholeAt(p, l, j);
      assert m[j] == SwapPass(p, l)[j];
      MirrorInvolution(i);
    }
  }

  /** A whole-block pass leaves everything from `l` on as it was. */
  lemma SwapPassKeepsTail<T>(m: seq<T>, l: nat)
    requires l % 12 == 0 && l <= |m|
    ensures SwapPass(m, l)[l..] == m[l..]
  {
    SwapPassWholeBlocks(m, l);
  }

  /** One position of a whole-block pass. */
  lemma SwapPassWholeAt<T>(s: seq<T>, l: nat, i: nat)
    requires l % 12 == 0 && l <= |s| && i < l
    ensures Mirror(i) < l && SwapPass(s, l)[i] == s[Mirror(i)]
  {
    SwapPassWholeBlocks(s, l);
  }
}

=== FILE: cstrings.dfy ===
/** Option type used for lookups that may fail. */
module Wrappers {

  datatype Option<+T> = None | Some(value: T)
}

/**
 Bytes and the few C string primitives the dissector relies on: `strchr`
 followed by a write of a terminator (`Before`), and `strstr` (`Contains`).
 The host terminates every payload with a NUL after its last byte, so a C
 string view of a buffer is the run of bytes before its first NUL.
 */
module CStrings {
  import opened Wrappers

  /** An unsigned octet of packet payload. */
  type byte = bv8

  const NUL: byte := 0x00
  const LF: byte := 0x0A
  const CR: byte := 0x0D

  /** Position of the first occurrence of `c` in `s`, if any (`strchr`). */
  function IndexOf(s: seq<byte>, c: byte): (r: Option<nat>)
    ensures r.Some? ==> r.value < |s| && s[r.value] == c && c !in s[..r.value]
    ensures r.None? <==> c !in s
  {
    if |s| == 0 then None
    else if s[0] == c then Some(0)
    else
      match IndexOf(s[1..], c)
      case None => None
      case Some(i) =>
        assert s[..i + 1] == [s[0]] + s[1..][..i];
        Some(i + 1)
  }

  /**
   The bytes of `s` before the first `c`: what a C caller sees after
   `if ((p = strchr(s, c))) *p = 0`, and, for `c == NUL`, the C string
   that a NUL-terminated buffer holds.
   */
  function Before(s: seq<byte>, c: byte): (r: seq<byte>)
    ensures r <= s
    ensures c !in r
    ensures |r| < |s| ==> s[|r|] == c
  {
    match IndexOf(s, c)
    case None => s
    case Some(i) => s[..i]
  }

  /** `pat` occurs in `s` starting at index `i`. */
  predicate OccursAt(s: seq<byte>, pat: seq<byte>, i: int)
  {
    0 <= i <= |s| - |pat| && s[i..i + |pat|] == pat
  }

  /** `pat` occurs somewhere in `s` (`strstr(s, pat) != NULL`). */
  predicate Contains(s: seq<byte>, pat: seq<byte>)
    ensures Contains(s, pat) ==> |pat| <= |s|
    ensures pat <= s ==> Contains(s, pat)
  {
    assert pat <= s ==> OccursAt(s, pat, 0);
    exists i | 0 <= i <= |s| - |pat| :: OccursAt(s, pat, i)
  }

  /** An occurrence survives bytes added on either side. */
  lemma ContainsWithin(a: seq<byte>, s: seq<byte>, b: seq<byte>, pat: seq<byte>)
    requires Contains(s, pat)
    ensures Contains(a + s + b, pat)
  {
    var i :| 0 <= i <= |s| - |pat| && OccursAt(s, pat, i);
    var w := a + s + b;
    assert w[|a| + i..|a| + i + |pat|] == s[i..i + |pat|];
    assert OccursAt(w, pat, |a| + i);
  }

  /** `Before` stops at the first `c`, whatever follows it. */
  lemma BeforeStops(p: seq<byte>, c: byte, rest: seq<byte>)
    ensures Before(p + [c] + rest, c) == Before(p, c)
  {
    var s := p + [c] + rest;
    var r := Before(p, c);
    assert r <= s;
    assert |r| < |p| ==> s[|r|] == p[|r|];
    assert |r| == |p| ==> s[|r|] == c;
    BeforeUnique(s, c, r);
  }

  /** `Before(s, c)` is the only `c`-free prefix of `s` that ends at a `c` or at the end of `s`. */
  lemma BeforeUnique(s: seq<byte>, c: byte, r: seq<byte>)
    requires r <= s && c !in r
    requires |r| < |s| ==> s[|r|] == c
    ensures r == Before(s, c)
  {
  }
}

=== FILE: decoder.dfy ===
/**
 `decode_timeseal` step by step, as the C code runs it over the buffer:
 find the line feed, write the terminator, mix byte by byte, swap block by
 block with the exclusive-or exchange of the `SC` macro, and cut at the
 first timestamp mark.  Each loop is tied to the functional definitions
 of the timeseal module.
 */
module Decoder {
  import opened CStrings
  import opened BlockSwap
  import opened Timeseal

  /**
   `SC(i, j)`: exchange two distinct bytes of the buffer through three
   exclusive-ors, without a temporary (ec_fics.c:46).  The first step
   leaves `s[i] ^ s[j]` at `i`; `XorSteps` gives the bytes the next two
   steps write at `j` and then at `i`.
   */
  method ExchangeXor(s: seq<byte>, i: nat, j: nat) returns (r: seq<byte>)
    requires i < |s| && j < |s| && i != j
    ensures r == Swap(s, i, j)
  {
    var y, z := XorSteps(s[i], s[j]);
    r := s[i := s[i] ^ s[j]];
    r := r[j := y];
    r := r[i := z];
  }

  /**
   With `a` at `i` and `b` at `j`: `s[i] ^= s[j]` leaves `a ^ b`, then
   `s[j] ^= s[i]` leaves `a`, then `s[i] ^= s[j]` leaves `b`.
   */
  method XorSteps(a: byte, b: byte) returns (y: byte, z: byte)
    ensures y == a && z == b
  {
    XorExchange(a, b);
    var x := a ^ b;
    y := b ^ x;
    z := x ^ y;
  }

  /** The byte algebra behind `SC`: `b ^ (a ^ b)` is `a`, and `(a ^ b) ^ a` is `b`. */
  lemma XorExchange(a: byte, b: byte)
    ensures b ^ (a ^ b) == a
    ensures (a ^ b) ^ (b ^ (a ^ b)) == b
  {
  }

  /**
   The bytes before the first NUL or timestamp mark of `u` are what
   `CutTimestamp` returns, and no other prefix is.
   */
  lemma CutTimestampUnique(u: seq<byte>, r: seq<byte>)
    requires r <= u && NUL !in r && TimestampMark !in r
    requires |r| < |u| ==> u[|r|] == NUL || u[|r|] == TimestampMark
    ensures r == CutTimestamp(u)
  {
    var a := Before(u, NUL);
    if |r| < |u| && u[|r|] == TimestampMark {
      BeforeUnique(a, TimestampMark, r);
    } else {
      BeforeUnique(u, NUL, r);
      BeforeUnique(r, TimestampMark, r);
    }
  }

  /** The decoder as the C code runs it (ec_fics.c:34-54). */
  method DecodeTimeseal(buf: seq<byte>) returns (r: seq<byte>)
    requires Decodable(buf)
    requires RoundUp12(LineLength(buf)) <= |buf|
    ensures r == DecodeAsWritten(buf)
  {
    var t := FindLineFeed(buf);
    t := t - 1;
    var offset := buf[t] as int - 0x80;
    var l := t;
    assert offset == Offset(buf);
    var s := buf[l := NUL];
    s := MixLoop(s, l, offset);
    MixAfterTerminator(buf, l, offset);
    assert s == Mixed(buf);
    s := SwapLoop(s, l);
    r := CutLoop(s);
  }

  /** `strchr(s, 0x0a)` on a decodable buffer: the index of its first line feed (ec_fics.c:38). */
  method FindLineFeed(buf: seq<byte>) returns (t: nat)
    requires Decodable(buf)
    ensures t == LineLength(buf) + 1
  {
    t := 0;
    while buf[t] != LF
      invariant 0 <= t <= LineLength(buf) + 1
      invariant LF !in buf[..t]
      decreases LineLength(buf) + 1 - t
    {
      t := t + 1;
    }
  }

  /** The XOR loop over the first `l` bytes (ec_fics.c:43-44). */
  method MixLoop(buf: seq<byte>, l: nat, offset: int) returns (s: seq<byte>)
    requires l <= |buf| && KeyDefined(l, offset)
    ensures s == XorPass(buf, l, offset)
  {
    s := buf;
    var n := 0;
    while n < l
      invariant 0 <= n <= l && |s| == |buf|
      invariant forall i | 0 <= i < n :: s[i] == Mix(buf[i], i, offset)
      invariant s[n..] == buf[n..]
    {
      assert KeyInRange(n, offset);
      s := s[n := ((s[n] + 32) ^ Key[CRem50(n + offset)]) & 0x7F];
      n := n + 1;
    }
  }

  /** Writing the terminator before the XOR loop, as the C code does, gives the same buffer as after it. */
  lemma MixAfterTerminator(buf: seq<byte>, l: nat, offset: int)
    requires l < |buf| && KeyDefined(l, offset)
    ensures XorPass(buf[l := NUL], l, offset) == XorPass(buf, l, offset)[l := NUL]
  {
  }

  /** The block swap loop (ec_fics.c:46-48). */
  method SwapLoop(m: seq<byte>, l: nat) returns (s: seq<byte>)
    requires RoundUp12(l) <= |m|
    ensures s == SwapPass(m, l)
  {
    s := m;
    var n := 0;
    while n < l
      invariant n % 12 == 0 && |s| == |m|
      invariant SwapFrom(s, n, l) == SwapPass(m, l)
      decreases l - n
    {
      BlockWithinReach(n, l);
      s := ExchangeXor(s, n, n + 11);
      s := ExchangeXor(s, n + 2, n + 9);
      s := ExchangeXor(s, n + 4, n + 7);
      n := n + 12;
    }
  }

  /** The C string left once the first timestamp mark is overwritten (ec_fics.c:51-53). */
  method CutLoop(u: seq<byte>) returns (r: seq<byte>)
    ensures r == CutTimestamp(u)
  {
    var k := 0;
    while k < |u| && u[k] != NUL && u[k] != TimestampMark
      invariant 0 <= k <= |u|
      invariant NUL !in u[..k] && TimestampMark !in u[..k]
    {
      k := k + 1;
    }
    r := u[..k];
    CutTimestampUnique(u, r);
  }
}

=== FILE: fics.dfy ===
/**
 The per-flow credential capture of the FICS dissector (`dissector_fics`).
 The host keeps one session per flow; here the session store is a map from
 an opaque flow identifier to the pending username, where `None` means the
 flow saw the server's login prompt and no username yet.  A step takes one
 packet and returns the new store, the text reported when the client sends
 a timeseal connection string, and the captured credential, if any.
 */
module Fics {
  import opened Wrappers
  import opened CStrings
  import opened Timeseal

  datatype Direction = FromServer | FromClient

  /** The server side of a flow: its address and TCP port, both opaque here. */
  datatype Endpoint = Endpoint(address: seq<byte>, port: nat)

  /**
   The key of a flow's session: the host compares session identifiers as
   byte strings, and builds the same one for both directions of a flow.
   */
  type Ident = seq<byte>

  /** One TCP payload of a flow; `dst` is the endpoint the packet is sent to. */
  datatype Packet = Packet(id: Ident, dir: Direction, dst: Endpoint, payload: seq<byte>)

  /** A captured login: the server it was sent to, the username and the password. */
  datatype Credential = Credential(server: Endpoint, user: seq<byte>, pass: seq<byte>)

  /** The session store: a flow is armed when present, with its username once one was sent. */
  type Store = map<Ident, Option<seq<byte>>>

  /** What one packet does: the new store, a reported connection string, a captured credential. */
  datatype Outcome = Outcome(sessions: Store, notice: Option<seq<byte>>, credential: Option<Credential>)

  /** "login:", the server prompt that starts the capture (ec_fics.c:87). */
  const LoginMarker: seq<byte> := [0x6C, 0x6F, 0x67, 0x69, 0x6E, 0x3A]

  /** "TIMESTAMP", found in the connection string of a timeseal client (ec_fics.c:100). */
  const TimestampMarker: seq<byte> := [0x54, 0x49, 0x4D, 0x45, 0x53, 0x54, 0x41, 0x4D, 0x50]

  /** The Telnet "interpret as command" byte (section "TELNET COMMAND STRUCTURE" of RFC 854). */
  const IAC: byte := 0xFF

  /** The store agrees with `store` on every flow other than `id`. */
  ghost predicate OthersUnchanged(store: Store, store': Store, id: Ident)
  {
    forall k | k != id :: (k in store' <==> k in store) && (k in store ==> store'[k] == store[k])
  }

  /**
   The trailer test on a client chunk (ec_fics.c:95): it ends in a line
   feed preceded by a byte with the high bit set.
   */
  predicate SealedTrailer(chunk: seq<byte>): (b: bool)
    ensures b ==> |chunk| >= 2 && LF in chunk && chunk[|chunk| - 2] != NUL && chunk[|chunk| - 2] != CR && chunk[|chunk| - 2] != LF
  {
    |chunk| >= 2 && chunk[|chunk| - 1] == LF && chunk[|chunk| - 2] >= 0x80
  }

  /**
   The dissector can process the packet without undefined behaviour: a
   one-byte client chunk holding a line feed makes the trailer test read
   before the payload, and a chunk that passes the trailer test must be a
   line the timeseal decoder can process.
   */
  predicate Dissectable(p: Packet)
  {
    p.dir == FromClient ==>
      !(|p.payload| == 1 && p.payload[0] == LF) &&
      (SealedTrailer(p.payload) ==> Decodable(p.payload))
  }

  /**
   The C string a client chunk leaves at the payload pointer: the decoded
   line when the trailer test passes (ec_fics.c:95-96), the payload up to
   its first NUL otherwise.
   */
  function ClientText(chunk: seq<byte>): (text: seq<byte>)
    requires SealedTrailer(chunk) ==> Decodable(chunk)
    ensures NUL !in text
    ensures SealedTrailer(chunk) ==> |text| <= |chunk| - 2 && forall i | 0 <= i < |text| :: text[i] < 0x80
    ensures !SealedTrailer(chunk) ==> text <= chunk && (|text| < |chunk| ==> chunk[|text|] == NUL)
  {
    if SealedTrailer(chunk) then Decode(chunk) else Before(chunk, NUL)
  }

  /**
   A string cut at its first carriage return and then at its first line
   feed (ec_fics.c:120-127).
   */
  function StripLine(x: seq<byte>): (r: seq<byte>)
    ensures r <= x
    ensures CR !in r && LF !in r
    ensures |r| < |x| ==> x[|r|] == CR || x[|r|] == LF
  {
    Before(Before(x, CR), LF)
  }

  /** `StripLine` keeps exactly the longest prefix free of CR and LF. */
  lemma StripLineLongest(x: seq<byte>, r: seq<byte>)
    requires r <= x && CR !in r && LF !in r
    requires |r| < |x| ==> x[|r|] == CR || x[|r|] == LF
    ensures r == StripLine(x)
  {
    var a := Before(x, CR);
    if |r| < |x| && x[|r|] == LF {
      assert |r| <= |a|;
    } else if |r| < |x| {
      assert |a| <= |r|;
    }
    BeforeUnique(a, LF, r);
  }

  /**
   A server chunk (ec_fics.c:84-92) arms a flow that has no session when
   its text contains "login:"; an existing session is left as it is.
   */
  function OnServer(store: Store, id: Ident, text: seq<byte>): (store': Store)
    ensures OthersUnchanged(store, store', id)
    ensures id in store' <==> id in store || Contains(text, LoginMarker)
    ensures id in store ==> store'[id] == store[id]
    ensures id !in store && id in store' ==> store'[id] == None
  {
    if id !in store && Contains(text, LoginMarker) then store[id := None] else store
  }

  /**
   A client chunk with text `text` (ec_fics.c:98-139).  The text is
   reported whenever it contains "TIMESTAMP".  On an armed flow, a chunk
   starting with IAC is ignored; otherwise the first chunk is kept as the
   username, and the next one is the password: both are cut at CR and LF,
   paired with the server endpoint `dst`, and the session is removed.
   */
  function OnClient(store: Store, id: Ident, dst: Endpoint, text: seq<byte>): (o: Outcome)
    ensures o.notice.Some? <==> Contains(text, TimestampMarker)
    ensures o.notice.Some? ==> o.notice.value == text
    ensures OthersUnchanged(store, o.sessions, id)
    ensures id !in store ==> o.sessions == store && o.credential.None?
    ensures |text| > 0 && text[0] == IAC ==> o.sessions == store && o.credential.None?
    ensures o.credential.Some? <==> id in store && store[id].Some? && !(|text| > 0 && text[0] == IAC)
    ensures o.credential.Some? ==>
      id !in o.sessions &&
      o.credential.value == Credential(dst, StripLine(store[id].value), StripLine(text))
    ensures id in store && store[id].None? && !(|text| > 0 && text[0] == IAC) ==>
      id in o.sessions && o.sessions[id] == Some(text)
  {
    var notice := if Contains(text, TimestampMarker) then Some(text) else None;
    if id !in store || (|text| > 0 && text[0] == IAC) then
      Outcome(store, notice, None)
    else
      match store[id]
      case None => Outcome(store[id := Some(text)], notice, None)
      case Some(user) =>
        Outcome(store - {id}, notice, Some(Credential(dst, StripLine(user), StripLine(text))))
  }

  /**
   One packet through the dissector (ec_fics.c:69-143).  An empty payload
   does nothing; a server packet never reports or captures anything; a
   credential is captured only from a flow holding a username, which is
   then forgotten; a new session is created only by a server "login:".
   */
  function Step(store: Store, p: Packet): (o: Outcome)
    requires Dissectable(p)
    ensures |p.payload| == 0 ==> o == Outcome(store, None, None)
    ensures OthersUnchanged(store, o.sessions, p.id)
    ensures p.dir == FromServer ==> o.notice.None? && o.credential.None?
    ensures p.id in store && p.id !in o.sessions ==> o.credential.Some?
    ensures o.credential.Some? ==>
      p.id in store && store[p.id].Some? && p.id !in o.sessions &&
      CR !in o.credential.value.user && LF !in o.credential.value.user &&
      CR !in o.credential.value.pass && LF !in o.credential.value.pass &&
      o.credential.value.user <= store[p.id].value && o.credential.value.server == p.dst
    ensures p.id !in store && p.id in o.sessions ==>
      p.dir == FromServer && Contains(Before(p.payload, NUL), LoginMarker) && o.sessions[p.id] == None
    ensures p.id !in store && p.dir == FromClient ==> o.sessions == store && o.credential.None?
  {
    if |p.payload| == 0 then
      Outcome(store, None, None)
    else if p.dir == FromServer then
      Outcome(OnServer(store, p.id, Before(p.payload, NUL)), None, None)
    else
      OnClient(store, p.id, p.dst, ClientText(p.payload))
  }

  /** After a credential was captured, further client chunks on that flow change nothing. */
  lemma CaptureEndsCollection(store: Store, p: Packet, q: Packet)
    requires Dissectable(p) && Dissectable(q)
    requires Step(store, p).credential.Some?
    requires q.id == p.id && q.dir == FromClient
    ensures Step(Step(store, p).sessions, q).sessions == Step(store, p).sessions
    ensures Step(Step(store, p).sessions, q).credential.None?
  {
  }

  /** A server packet on an armed flow leaves the store, including a pending username, unchanged. */
  lemma ServerKeepsSession(store: Store, p: Packet)
    requires p.dir == FromServer && p.id in store
    ensures Step(store, p) == Outcome(store, None, None)
  {
  }

  /**
   A line a plain telnet client sends for a username or a password: no
   NUL, CR or LF inside, not starting with IAC, and not mentioning
   "TIMESTAMP" once its CR LF is added.
   */
  predicate PlainLine(x: seq<byte>)
  {
    |x| > 0 && x[0] != IAC && NUL !in x && CR !in x && LF !in x &&
    !Contains(x + [CR, LF], TimestampMarker)
  }

  /**
   A full login on one flow: a server chunk containing "login:" arms it,
   the first client line is kept verbatim, the second yields the
   credential with both line endings cut, and the flow is forgotten.
   */
  lemma LoginCapture(id: Ident, dst: Endpoint, banner: seq<byte>, user: seq<byte>, pass: seq<byte>)
    requires Contains(Before(banner, NUL), LoginMarker)
    requires PlainLine(user) && PlainLine(pass)
    ensures Step(map[], Packet(id, FromServer, dst, banner)) == Outcome(map[id := None], None, None)
    ensures Step(map[id := None], Packet(id, FromClient, dst, user + [CR, LF])) ==
      Outcome(map[id := Some(user + [CR, LF])], None, None)
    ensures Step(map[id := Some(user + [CR, LF])], Packet(id, FromClient, dst, pass + [CR, LF])) ==
      Outcome(map[], None, Some(Credential(dst, user, pass)))
  {
    var u := user + [CR, LF];
    assert map[id := None][id := Some(u)] == map[id := Some(u)];
    assert map[id := Some(u)] - {id} == map[];
    PlainLineText(user);
    PlainLineText(pass);
    ClientStep(map[id := None], Packet(id, FromClient, dst, u), u);
    ClientStep(map[id := Some(u)], Packet(id, FromClient, dst, pass + [CR, LF]), pass + [CR, LF]);
  }

  /**
   A non-empty client chunk whose text has no "TIMESTAMP" and does not
   start with IAC, on an armed flow: the first one is stored as the
   username, the second one completes the credential and ends the session.
   */
  lemma ClientStep(store: Store, p: Packet, text: seq<byte>)
    requires Dissectable(p) && p.dir == FromClient && |p.payload| > 0 && p.id in store
    requires ClientText(p.payload) == text && !Contains(text, TimestampMarker)
    requires |text| > 0 && text[0] != IAC
    ensures store[p.id].None? ==>
      Step(store, p) == Outcome(store[p.id := Some(text)], None, None)
    ensures store[p.id].Some? ==>
      Step(store, p) == Outcome(store - {p.id}, None,
        Some(Credential(p.dst, StripLine(store[p.id].value), StripLine(text))))
  {
  }

  /** A plain line ended with CR LF passes the client path verbatim and strips back to itself. */
  lemma PlainLineText(x: seq<byte>)
    requires PlainLine(x)
    ensures !SealedTrailer(x + [CR, LF]) && Dissectable(Packet([], FromClient, Endpoint([], 0), x + [CR, LF]))
    ensures ClientText(x + [CR, LF]) == x + [CR, LF]
    ensures StripLine(x + [CR, LF]) == x
  {
    var y := x + [CR, LF];
    assert !SealedTrailer(y);
    BeforeUnique(y, NUL, y);
    StripLineLongest(y, x);
  }

  /** A captured credential together with the flow it came from. */
  datatype Capture = Capture(id: Ident, credential: Credential)

  /** The store after a run of packets, and the captures in the order they happened. */
  datatype Trace = Trace(sessions: Store, captures: seq<Capture>)

  predicate AllDissectable(ps: seq<Packet>)
  {
    forall i | 0 <= i < |ps| :: Dissectable(ps[i])
  }

  /** `p` is a server chunk of flow `id` whose text contains "login:". */
  predicate ServerLogin(p: Packet, id: Ident)
  {
    p.id == id && p.dir == FromServer && Contains(Before(p.payload, NUL), LoginMarker)
  }

  /** Some packet of `ps` is a server "login:" chunk of flow `id`. */
  predicate LoginSeen(ps: seq<Packet>, id: Ident)
  {
    exists i | 0 <= i < |ps| :: ServerLogin(ps[i], id)
  }

  /** The dissector applied to every packet of `ps` in turn, starting from `store`. */
  function Run(store: Store, ps: seq<Packet>): (t: Trace)
    requires AllDissectable(ps)
    ensures |t.captures| <= |ps|
    decreases |ps|
  {
    if |ps| == 0 then Trace(store, [])
    else
      var o := Step(store, ps[0]);
      var rest := Run(o.sessions, ps[1..]);
      var now := if o.credential.Some? then [Capture(ps[0].id, o.credential.value)] else [];
      Trace(rest.sessions, now + rest.captures)
  }

  /**
   Nothing is collected on a flow the dissector has not seen a server
   "login:" on: every session at the end of a run, and every capture made
   during it, belongs to a flow that was armed at the start or saw such a
   chunk.
   */
  lemma {:induction false} RunNeedsLogin(store: Store, ps: seq<Packet>)
    requires AllDissectable(ps)
    ensures forall id | id in Run(store, ps).sessions :: id in store || LoginSeen(ps, id)
    ensures forall c | c in Run(store, ps).captures :: c.id in store || LoginSeen(ps, c.id)
    decreases |ps|
  {
    if |ps| > 0 {
      var o := Step(store, ps[0]);
      var t := Run(o.sessions, ps[1..]);
      RunNeedsLogin(o.sessions, ps[1..]);
      forall id | id in o.sessions || LoginSeen(ps[1..], id)
        ensures id in store || LoginSeen(ps, id)
      {
        if id !in store {
          if id in o.sessions {
            assert ServerLogin(ps[0], id);
          } else {
            var i :| 0 <= i < |ps| - 1 && ServerLogin(ps[1..][i], id);
            assert ServerLogin(ps[i + 1], id);
          }
        }
      }
    }
  }

  /** A run of client chunks alone never arms a flow and never captures from an unarmed one. */
  lemma ClientsAloneArmNothing(store: Store, ps: seq<Packet>)
    requires AllDissectable(ps)
    requires forall i | 0 <= i < |ps| :: ps[i].dir == FromClient
    ensures Run(store, ps).sessions.Keys <= store.Keys
    ensures forall c | c in Run(store, ps).captures :: c.id in store
  {
    RunNeedsLogin(store, ps);
    assert forall id :: !LoginSeen(ps, id);
  }

  /** The flow `id` has no capture among `cs`. */
  predicate NoCapture(cs: seq<Capture>, id: Ident)
  {
    forall i | 0 <= i < |cs| :: cs[i].id != id
  }

  /**
   A flow stays armed until a credential is captured from it: a flow in
   the store at the start of a run that yields no capture for it is still
   in the store at the end.
   */
  lemma {:induction false} ArmedUntilCapture(store: Store, ps: seq<Packet>, id: Ident)
    requires AllDissectable(ps)
    requires id in store && NoCapture(Run(store, ps).captures, id)
    ensures id in Run(store, ps).sessions
    decreases |ps|
  {
    if |ps| > 0 {
      var o := Step(store, ps[0]);
      var rest := Run(o.sessions, ps[1..]);
      var now := if o.credential.Some? then [Capture(ps[0].id, o.credential.value)] else [];
      assert Run(store, ps).captures == now + rest.captures;
      assert o.credential.Some? ==> Run(store, ps).captures[0].id == ps[0].id;
      assert id in o.sessions;
      assert NoCapture(rest.captures, id) by {
        forall i | 0 <= i < |rest.captures| ensures rest.captures[i].id != id {
          assert rest.captures[i] == (now + rest.captures)[|now| + i];
        }
      }
      ArmedUntilCapture(o.sessions, ps[1..], id);
    }
  }
}

=== FILE: timeseal.dfy ===
/**
 The timeseal decoder (`decode_timeseal`): undoes the keystroke scrambling
 some FICS clients apply to the lines they send.  A scrambled line ends in an
 offset byte (its value minus 0x80 selects where the key starts) and a line
 feed.  Decoding mixes every byte before the offset byte with a fixed
 50-character key, exchanges three byte pairs in every 12-byte block, and
 cuts the result at the first 0x18, the start of the sender's timestamp.
 */
module Timeseal {
  import opened Wrappers
  import opened CStrings
  import opened BlockSwap

  /** A 7-bit byte. */
  type ascii = b: byte | b < 0x80

  /** The fixed key, "Timestamp (FICS) v1.0 - programmed by Henrik Gram." (ec_fics.c:30). */
  const Key: seq<ascii> :=
    [0x54, 0x69, 0x6D, 0x65, 0x73, 0x74, 0x61, 0x6D, 0x70, 0x20] +
    [0x28, 0x46, 0x49, 0x43, 0x53, 0x29, 0x20, 0x76, 0x31, 0x2E] +
    [0x30, 0x20, 0x2D, 0x20, 0x70, 0x72, 0x6F, 0x67, 0x72, 0x61] +
    [0x6D, 0x6D, 0x65, 0x64, 0x20, 0x62, 0x79, 0x20, 0x48, 0x65] +
    [0x6E, 0x72, 0x69, 0x6B, 0x20, 0x47, 0x72, 0x61, 0x6D, 0x2E]

  /**
   C's `x % 50` on an `int`: the remainder keeps the sign of `x`, because
   C's division truncates toward zero.
   */
  function CRem50(x: int): (r: int)
    ensures -50 < r < 50
    ensures (x - r) % 50 == 0
    ensures x >= 0 ==> 0 <= r
    ensures x < 0 ==> r <= 0
  {
    if x >= 0 then x % 50 else -((-x) % 50)
  }

  /** The key index `(n + offset) % 50` of ec_fics.c:44 is not negative. */
  predicate KeyInRange(n: nat, offset: int)
  {
    CRem50(n + offset) >= 0
  }

  /** Every key index the XOR pass over `[0, l)` uses is in bounds. */
  predicate KeyDefined(l: nat, offset: int)
  {
    forall n | 0 <= n < l :: KeyInRange(n, offset)
  }

  /**
   For an offset computed from a byte, the key indices of a line of length
   `l` are all in bounds exactly when the line is empty, the offset is not
   negative, or the line is one byte long and its only index is `-50 % 50`
   or `-100 % 50`, both 0 in C.
   */
  lemma KeyDefinedExactly(l: nat, offset: int)
    requires -0x80 <= offset < 0x80
    ensures KeyDefined(l, offset) <==> l == 0 || offset >= 0 || (l == 1 && (offset == -50 || offset == -100))
  {
    if offset < 0 && l > 0 {
      assert KeyInRange(0, offset) <==> offset == -50 || offset == -100;
      assert offset == -50 || offset == -100 ==> !KeyInRange(1, offset);
    }
  }

  /** The key byte used at position `n` (ec_fics.c:30, 44). */
  function KeyAt(n: nat, offset: int): (k: byte)
    requires KeyInRange(n, offset)
    ensures k < 0x80
  {
    Key[CRem50(n + offset)]
  }

  /** The marker the sender puts in front of its timestamp. */
  const TimestampMark: byte := 0x18

  /**
   The XOR pass applied to one byte at position `n`: add 32 (wrapping, as
   the result is stored back into a `char`), XOR with the key byte, and
   clear the high bit.
   */
  function Mix(b: byte, n: nat, offset: int): (r: byte)
    requires KeyInRange(n, offset)
    ensures r < 0x80
  {
    ((b + 32) ^ KeyAt(n, offset)) & 0x7F
  }

  /**
   The sender's scrambling of one 7-bit byte at position `n`: set the high
   bit, XOR with the same key byte, subtract 32 (wrapping).  This is a
   reference definition of the inverse of `Mix`, not code from the dissector.
   */
  function Scramble(p: byte, n: nat, offset: int): (w: byte)
    requires KeyInRange(n, offset)
    ensures 0x60 <= w < 0xE0
  {
    ((p | 0x80) ^ KeyAt(n, offset)) - 32
  }

  /** `Mix` undoes `Scramble` on every 7-bit byte. */
  lemma MixScramble(p: byte, n: nat, offset: int)
    requires KeyInRange(n, offset) && p < 0x80
    ensures Mix(Scramble(p, n, offset), n, offset) == p
  {
  }

  /** The XOR pass over the first `l` bytes (ec_fics.c:43-44); the rest of `s` is kept. */
  function XorPass(s: seq<byte>, l: nat, offset: int): (r: seq<byte>)
    requires l <= |s|
    requires KeyDefined(l, offset)
    ensures |r| == |s|
    ensures forall i | 0 <= i < l :: r[i] < 0x80
    ensures r[l..] == s[l..]
  {
    seq(|s|, i requires 0 <= i < |s| => if i < l then Mix(s[i], i, offset) else s[i])
  }

  /** The sender's side of the XOR pass, byte by byte (a reference definition, not dissector code). */
  function ScramblePass(p: seq<byte>, offset: nat): (w: seq<byte>)
    ensures |w| == |p|
    ensures forall i | 0 <= i < |w| :: 0x60 <= w[i] < 0xE0
  {
    seq(|p|, i requires 0 <= i < |p| => Scramble(p[i], i, offset))
  }

  /** `XorPass` restores every 7-bit line that `ScramblePass` scrambled with the same offset. */
  lemma XorPassInvertsScramble(p: seq<byte>, offset: nat)
    requires forall i | 0 <= i < |p| :: p[i] < 0x80
    ensures XorPass(ScramblePass(p, offset), |p|, offset) == p
  {
    var r := XorPass(ScramblePass(p, offset), |p|, offset);
    forall i | 0 <= i < |p| ensures r[i] == p[i] {
      MixScramble(p[i], i, offset);
    }
  }

  /**
   The buffer holds a line the decoder can process without undefined
   behaviour: its C string has a line feed, that line feed is not the first
   byte (so the offset byte exists), and every key index is in bounds.  By
   `KeyDefinedExactly` that means the offset byte is at least 0x80, or the
   line is empty, or the line is one byte long and the offset byte is 0x4E
   or 0x1C (offsets -50 and -100, whose C remainder is 0).
   */
  predicate Decodable(buf: seq<byte>)
  {
    match IndexOf(Before(buf, NUL), LF)
    case None => false
    case Some(t) => t >= 1 && (t == 1 || buf[t - 1] >= 0x80 || (t == 2 && (buf[1] == 0x4E || buf[1] == 0x1C)))
  }

  /**
   The length `l` of the scrambled line: the index of the offset byte, one
   before the first line feed of the C string (ec_fics.c:38-40).
   */
  function LineLength(buf: seq<byte>): (l: nat)
    requires Decodable(buf)
    ensures l + 1 < |buf| && buf[l + 1] == LF && buf[l] != NUL
    ensures LF !in buf[..l + 1] && NUL !in buf[..l + 1]
    ensures l == 0 || buf[l] >= 0x80 || (l == 1 && (buf[l] == 0x4E || buf[l] == 0x1C))
  {
    var cs := Before(buf, NUL);
    assert cs[..IndexOf(cs, LF).value] == buf[..IndexOf(cs, LF).value];
    IndexOf(cs, LF).value - 1
  }

  /** The key offset carried by the offset byte (ec_fics.c:39). */
  function Offset(buf: seq<byte>): (offset: int)
    requires Decodable(buf)
    ensures -0x80 <= offset < 0x80
    ensures KeyDefined(LineLength(buf), offset)
  {
    var l := LineLength(buf);
    var offset := buf[l] as int - 0x80;
    assert buf[l] == 0x4E ==> offset == -50;
    assert buf[l] == 0x1C ==> offset == -100;
    KeyDefinedExactly(l, offset);
    offset
  }

  /** The buffer after the terminator at `l` is written and the XOR pass has run (ec_fics.c:41-44). */
  function Mixed(buf: seq<byte>): (r: seq<byte>)
    requires Decodable(buf)
    ensures |r| == |buf|
    ensures forall i | 0 <= i < LineLength(buf) :: r[i] < 0x80
    ensures r[LineLength(buf)] == NUL
    ensures forall i | LineLength(buf) < i < |buf| :: r[i] == buf[i]
  {
    var l := LineLength(buf);
    XorPass(buf, l, Offset(buf))[l := NUL]
  }

  /**
   The C string the caller sees once both passes have run over `u`: the
   bytes before the first NUL, cut at the first timestamp mark
   (ec_fics.c:51-53).
   */
  function CutTimestamp(u: seq<byte>): (r: seq<byte>)
    ensures r <= u
    ensures NUL !in r && TimestampMark !in r
    ensures |r| < |u| ==> u[|r|] == NUL || u[|r|] == TimestampMark
  {
    Before(Before(u, NUL), TimestampMark)
  }

  /**
   `decode_timeseal` as written: the swap loop runs for every block start
   below `l`, so a trailing partial block is swapped too and the pass reaches
   up to index `RoundUp12(l) - 1`, past the line.  The buffer must extend
   that far.
   */
  function DecodeAsWritten(buf: seq<byte>): (r: seq<byte>)
    requires Decodable(buf)
    requires RoundUp12(LineLength(buf)) <= |buf|
    ensures NUL !in r && TimestampMark !in r
    ensures r <= SwapPass(Mixed(buf), LineLength(buf))
    ensures |r| < |buf| ==>
      SwapPass(Mixed(buf), LineLength(buf))[|r|] == NUL || SwapPass(Mixed(buf), LineLength(buf))[|r|] == TimestampMark
  {
    CutTimestamp(SwapPass(Mixed(buf), LineLength(buf)))
  }

  /**
   When the line length leaves a remainder of 2 or 4 modulo 12 the swap
   pass moves the terminator written at `l` upwards; for every other
   remainder it stays at or below `l`, and so the decoded string's length
   is at most the line's.  Its contents may still come from past the line
   (`PartialBlockPullsTail`).
   */
  lemma DecodeAsWrittenWithinLine(buf: seq<byte>)
    requires Decodable(buf)
    requires RoundUp12(LineLength(buf)) <= |buf|
    requires LineLength(buf) % 12 != 2 && LineLength(buf) % 12 != 4
    ensures |DecodeAsWritten(buf)| <= LineLength(buf)
  {
    TerminatorStaysBelow(Mixed(buf), LineLength(buf));
  }

  /** The swap pass keeps a NUL at `l` at or below `l` unless `l % 12` is 2 or 4. */
  lemma TerminatorStaysBelow(m: seq<byte>, l: nat)
    requires RoundUp12(l) <= |m| && l < |m| && m[l] == NUL
    requires l % 12 != 2 && l % 12 != 4
    ensures |CutTimestamp(SwapPass(m, l))| <= l
  {
    var u := SwapPass(m, l);
    var z := Partner(l, l);
    SwapPassAt(m, l, z);
    MirrorInvolution(l);
    assert u[z] == NUL;
    assert z <= l;
  }

  /**
   A line of length 2 whose buffer continues with plain bytes: the decoded
   string runs on past the line and carries the line feed and raw bytes
   from beyond it.
   */
  lemma DecodeAsWrittenOverrunsLine()
    ensures Decodable(OverrunSample) && LineLength(OverrunSample) == 2
    ensures RoundUp12(2) <= |OverrunSample|
    ensures DecodeAsWritten(OverrunSample) == [0x41, 0x08, 0x41, LF, 0x41, 0x41, 0x41, 0x41, 0x41]
  {
    OverrunSampleLine();
    var m := Mixed(OverrunSample);
    assert RoundUp12(2) == 12;
    OverrunSampleSwap(m);
    OverrunSampleCut(SwapPass(m, 2));
  }

  /**
   Whenever the line ends inside a block, the first position of that block
   receives the byte from its position 11, which lies at or past the
   offset byte: the line feed, or a byte beyond it.
   */
  lemma PartialBlockPullsTail(buf: seq<byte>)
    requires Decodable(buf)
    requires RoundUp12(LineLength(buf)) <= |buf|
    requires LineLength(buf) % 12 != 0
    ensures LineLength(buf) <= RoundDown12(LineLength(buf)) + 11 < |buf|
    ensures SwapPass(Mixed(buf), LineLength(buf))[RoundDown12(LineLength(buf))] ==
      Mixed(buf)[RoundDown12(LineLength(buf)) + 11]
  {
    var m, l := Mixed(buf), LineLength(buf);
    PartialBlockPulls(m, l);
    assert RoundDown12(l) == l - l % 12;
  }

  /**
   A 10-byte line: the line feed after the offset byte becomes the first
   byte of the decoded string.
   */
  lemma TenByteLineStartsWithLineFeed(buf: seq<byte>)
    requires Decodable(buf) && LineLength(buf) == 10 && 12 <= |buf|
    ensures |DecodeAsWritten(buf)| > 0 && DecodeAsWritten(buf)[0] == LF
  {
    assert RoundUp12(10) == 12 && RoundDown12(10) == 0;
    PartialBlockPullsTail(buf);
    var m := Mixed(buf);
    assert m[11] == m[11..][0] == buf[11];
    LeadingLineFeedSurvivesCut(SwapPass(m, 10));
  }

  /** A buffer starting with a line feed keeps it as the first byte of the cut string. */
  lemma LeadingLineFeedSurvivesCut(u: seq<byte>)
    requires |u| > 0 && u[0] == LF
    ensures |CutTimestamp(u)| > 0 && CutTimestamp(u)[0] == LF
  {
  }

  /** A buffer holding a line of length 2, followed by plain bytes. */
  const OverrunSample: seq<byte> := [0x41, 0x41, 0x80, LF, 0x41, 0x41, 0x41, 0x41, 0x41, 0x41, 0x41, 0x41]

  /** The sample's line length is 2 and its offset is 0; the XOR pass turns "AA" into 0x35 0x08. */
  lemma OverrunSampleLine()
    ensures Decodable(OverrunSample) && LineLength(OverrunSample) == 2
    ensures Mixed(OverrunSample) == [0x35, 0x08, NUL, LF, 0x41, 0x41, 0x41, 0x41, 0x41, 0x41, 0x41, 0x41]
  {
    var buf := OverrunSample;
    BeforeUnique(buf, NUL, buf);
    var t := IndexOf(buf, LF).value;
    assert buf[3] == LF && LF !in buf[..3];
    assert t == 3;
    OverrunSampleMix(XorPass(buf, 2, 0));
  }

  /** The two mixed bytes of the sample, against key bytes 'T' and 'i'. */
  lemma OverrunSampleMix(x: seq<byte>)
    requires x == XorPass(OverrunSample, 2, 0)
    ensures x[2 := NUL] == [0x35, 0x08, NUL, LF, 0x41, 0x41, 0x41, 0x41, 0x41, 0x41, 0x41, 0x41]
  {
    assert KeyAt(0, 0) == 0x54 && KeyAt(1, 0) == 0x69;
    assert x[0] == 0x35 && x[1] == 0x08;
    assert x[2..] == OverrunSample[2..];
  }

  /** The block at 0 is swapped whole, pulling the NUL up to index 9. */
  lemma OverrunSampleSwap(m: seq<byte>)
    requires m == [0x35, 0x08, NUL, LF, 0x41, 0x41, 0x41, 0x41, 0x41, 0x41, 0x41, 0x41]
    ensures SwapPass(m, 2) == [0x41, 0x08, 0x41, LF, 0x41, 0x41, 0x41, 0x41, 0x41] + [NUL] + [0x41, 0x35]
  {
    assert SwapPass(m, 2) == SwapFrom(SwapBlock(m, 0), 12, 2) == SwapBlock(m, 0);
  }

  /** The C string of the swapped sample ends at the NUL now at index 9. */
  lemma OverrunSampleCut(u: seq<byte>)
    requires u == [0x41, 0x08, 0x41, LF, 0x41, 0x41, 0x41, 0x41, 0x41] + [NUL] + [0x41, 0x35]
    ensures CutTimestamp(u) == [0x41, 0x08, 0x41, LF, 0x41, 0x41, 0x41, 0x41, 0x41]
  {
    var v: seq<byte> := [0x41, 0x08, 0x41, LF, 0x41, 0x41, 0x41, 0x41, 0x41];
    BeforeStops(v, NUL, [0x41, 0x35]);
    BeforeUnique(v, TimestampMark, v);
  }

  /** The longest run of whole blocks inside a line of length `l`. */
  function RoundDown12(l: nat): (r: nat)
    ensures r % 12 == 0 && r <= l < r + 12
    ensures RoundUp12(r) == r
  {
    l - l % 12
  }

  /**
   The buffer once the swap pass has run over the whole blocks of the line
   only: the descrambled line is followed by the terminator at `l`, and
   nothing from the offset byte on is touched.
   */
  function Descrambled(buf: seq<byte>): (u: seq<byte>)
    requires Decodable(buf)
    ensures |u| == |buf|
    ensures forall i | 0 <= i < LineLength(buf) :: u[i] < 0x80
    ensures u[LineLength(buf)] == NUL
    ensures u[LineLength(buf) + 1..] == buf[LineLength(buf) + 1..]
  {
    var l := LineLength(buf);
    var m := Mixed(buf);
    WholeBlocksKeepLine(m, l);
    var u := SwapPass(m, RoundDown12(l));
    assert u[l + 1..] == u[l..][1..];
    u
  }

  /**
   Swapping the whole blocks inside `[0, l)` keeps the line 7-bit and
   leaves everything from `l` on alone.
   */
  lemma WholeBlocksKeepLine(m: seq<byte>, l: nat)
    requires l < |m| && forall i | 0 <= i < l :: m[i] < 0x80
    ensures forall i | 0 <= i < l :: SwapPass(m, RoundDown12(l))[i] < 0x80
    ensures SwapPass(m, RoundDown12(l))[l..] == m[l..]
  {
    var b := RoundDown12(l);
    var u := SwapPass(m, b);
    SwapPassKeepsTail(m, b);
    forall i | 0 <= i < l ensures u[i] < 0x80 {
      if i < b {
        SwapPassWholeAt(m, b, i);
      } else {
        assert u[i] == u[b..][i - b];
      }
    }
    assert u[l..] == u[b..][l - b..];
  }

  /**
   The decoder with the swap pass confined to the line: only whole blocks
   inside `[0, l)` are swapped, so nothing past the offset byte is read or
   written.  The decoded string is no longer than the line, holds only
   bytes the XOR pass produced (all 7-bit), and is the descrambled line up
   to its first NUL or timestamp mark.
   */
  function Decode(buf: seq<byte>): (r: seq<byte>)
    requires Decodable(buf)
    ensures |r| <= LineLength(buf)
    ensures forall i | 0 <= i < |r| :: r[i] < 0x80
    ensures NUL !in r && TimestampMark !in r
    ensures r <= Descrambled(buf)
    ensures |r| < LineLength(buf) ==> Descrambled(buf)[|r|] in {NUL, TimestampMark}
  {
    var u := Descrambled(buf);
    CutTimestamp(u)
  }

  /** On a line of whole blocks the decoder as written and the confined decoder agree. */
  lemma DecodeAgreesOnWholeBlocks(buf: seq<byte>)
    requires Decodable(buf)
    requires LineLength(buf) % 12 == 0
    ensures RoundUp12(LineLength(buf)) <= |buf|
    ensures DecodeAsWritten(buf) == Decode(buf)
  {
    var l := LineLength(buf);
    assert RoundDown12(l) == l;
    assert Descrambled(buf) == SwapPass(Mixed(buf), l);
  }

  /** Every byte of `p` is 7-bit. */
  predicate SevenBit(p: seq<byte>)
  {
    forall i | 0 <= i < |p| :: p[i] < 0x80
  }

  /**
   A reference definition of the sender for lines of whole blocks, written
   as the inverse of the decoder: swap the blocks, scramble every byte
   against the key from the offset `offsetByte - 0x80` on, then append
   the offset byte and a line feed.
   */
  function Seal(p: seq<byte>, offsetByte: byte): (w: seq<byte>)
    requires |p| % 12 == 0 && offsetByte >= 0x80 && SevenBit(p)
    ensures |w| == |p| + 2 && w[|p|] == offsetByte && w[|p| + 1] == LF
    ensures forall i | 0 <= i < |p| :: 0x60 <= w[i] < 0xE0
  {
    ScramblePass(SwapLine(p), offsetByte as int - 0x80) + [offsetByte, LF]
  }

  /**
   Decoding a sealed line gives back the line, up to its first NUL or
   timestamp mark.
   */
  lemma SealRoundTrip(p: seq<byte>, offsetByte: byte)
    requires |p| % 12 == 0 && offsetByte >= 0x80 && SevenBit(p)
    ensures Decodable(Seal(p, offsetByte)) && LineLength(Seal(p, offsetByte)) == |p|
    ensures Decode(Seal(p, offsetByte)) == CutTimestamp(p)
  {
    SealDescrambled(p, offsetByte);
    CutTimestampStops(p, [NUL, LF]);
  }

  /** Whatever follows a NUL does not reach the decoded string. */
  lemma CutTimestampStops(p: seq<byte>, tail: seq<byte>)
    requires |tail| > 0 && tail[0] == NUL
    ensures CutTimestamp(p + tail) == CutTimestamp(p)
  {
    assert p + tail == p + [NUL] + tail[1..];
    BeforeStops(p, NUL, tail[1..]);
  }

  /** Descrambling a sealed line restores the plain line in front of the terminator. */
  lemma SealDescrambled(p: seq<byte>, offsetByte: byte)
    requires |p| % 12 == 0 && offsetByte >= 0x80 && SevenBit(p)
    ensures Decodable(Seal(p, offsetByte)) && LineLength(Seal(p, offsetByte)) == |p|
    ensures Descrambled(Seal(p, offsetByte)) == p + [NUL, LF]
  {
    SealMixed(p, offsetByte);
    DescrambledUnswaps(Seal(p, offsetByte), p);
  }

  /** When the XOR pass leaves a swapped line of whole blocks, the swap pass restores it. */
  lemma DescrambledUnswaps(w: seq<byte>, p: seq<byte>)
    requires Decodable(w) && LineLength(w) == |p| && |p| % 12 == 0
    requires Mixed(w) == SwapLine(p) + [NUL, LF]
    ensures Descrambled(w) == p + [NUL, LF]
  {
    assert RoundDown12(|p|) == |p|;
    SwapPassUndoes(p, [NUL, LF]);
  }

  /** The XOR pass over a sealed line undoes the scrambling and leaves the swapped line. */
  lemma SealMixed(p: seq<byte>, offsetByte: byte)
    requires |p| % 12 == 0 && offsetByte >= 0x80 && SevenBit(p)
    ensures Decodable(Seal(p, offsetByte)) && LineLength(Seal(p, offsetByte)) == |p|
    ensures Mixed(Seal(p, offsetByte)) == SwapLine(p) + [NUL, LF]
  {
    var w := Seal(p, offsetByte);
    var q := SwapLine(p);
    SealLine(p, offsetByte);
    SwapLineSevenBit(p);
    assert w[..|p|] == ScramblePass(q, offsetByte as int - 0x80);
    MixedUnscrambles(w, q, offsetByte as int - 0x80);
  }

  /** The XOR pass over a scrambled line ending in its offset byte and a line feed restores the line. */
  lemma MixedUnscrambles(w: seq<byte>, q: seq<byte>, offset: nat)
    requires Decodable(w) && LineLength(w) == |q| && Offset(w) == offset
    requires |w| == |q| + 2 && w[..|q|] == ScramblePass(q, offset) && SevenBit(q)
    ensures Mixed(w) == q + [NUL, LF]
  {
    var m := Mixed(w);
    forall i | 0 <= i < |q| ensures m[i] == q[i] {
      MixedAt(w, i);
      assert w[i] == ScramblePass(q, offset)[i];
      MixScramble(q[i], i, offset);
    }
    assert m[|q| + 1] == m[|q| + 1..][0] == w[|q| + 1];
    LineThenTwo(m, q, NUL, LF);
  }

  /** A sequence agreeing with `q` on its first `|q|` positions, then holding `a` and `b`, is `q + [a, b]`. */
  lemma LineThenTwo(m: seq<byte>, q: seq<byte>, a: byte, b: byte)
    requires |m| == |q| + 2 && m[|q|] == a && m[|q| + 1] == b
    requires forall i | 0 <= i < |q| :: m[i] == q[i]
    ensures m == q + [a, b]
  {
  }

  /** Each byte of the line after the XOR pass. */
  lemma MixedAt(buf: seq<byte>, i: nat)
    requires Decodable(buf) && i < LineLength(buf)
    ensures KeyInRange(i, Offset(buf)) && Mixed(buf)[i] == Mix(buf[i], i, Offset(buf))
  {
  }

  /** Swapping the blocks of a 7-bit line keeps it 7-bit. */
  lemma SwapLineSevenBit(p: seq<byte>)
    requires |p| % 12 == 0 && SevenBit(p)
    ensures SevenBit(SwapLine(p))
  {
    SwapPassWholeBlocks(p, |p|);
  }

  /** A sealed line is decodable, and its line length is the length of the plain line. */
  lemma SealLine(p: seq<byte>, offsetByte: byte)
    requires |p| % 12 == 0 && offsetByte >= 0x80 && SevenBit(p)
    ensures Decodable(Seal(p, offsetByte)) && LineLength(Seal(p, offsetByte)) == |p|
  {
    var w := Seal(p, offsetByte);
    assert NUL !in w;
    BeforeUnique(w, NUL, w);
    assert LF !in w[..|p| + 1];
    assert IndexOf(w, LF) == Some(|p| + 1);
  }
}
